=== FILE: README.md ===
# Travel network: verified model of the decision rules

The travel network is a travel-journal site. Users post travel logs, and other
users comment on them and bookmark ("save") them. This project is a Dafny
model of the parts of the code that make decisions and do not just render UI
or pass data through. There are six of them:

- **Save list** (`SaveList`). This is the server's bookmark handlers. Saving
  appends a log id to the user's list unless it is already there. Unsaving
  filters every copy of the id out.
- **Bearer middleware** (`AuthMiddleware`). The checks run in this order:
  missing header, wrong prefix, empty token, missing signing secret. Then the
  token is verified. The middleware either calls `next()` with `req.user`
  bound, or answers 401 or 500. `jwt.verify` is an oracle function parameter.
- **Register and login** (`Accounts`). These are transitions of a user store
  keyed by email. `bcrypt.hash`, `bcrypt.compare` and `jwt.sign` are
  uninterpreted function parameters. The salt, the new document id and the
  clock reading `jwt.sign` stamps into each token are inputs.
- **Comment panel** (`CommentRules`). This covers who may edit or delete a
  comment. The post owner may also delete when the page allows moderation.
  It also covers which request a submit, edit or delete sends, and how the
  shown list changes when the server answers.
- **Saved-logs page** (`SavedLogsView`). This covers the location and tag
  filters, the three sort orders, tag toggling, the active-filter count,
  clearing the filters, the tags offered for filtering, and the local
  bookkeeping after an unsave.
- **Image carousel** (`Carousel`). This is wrap-around next/prev index
  arithmetic and the guards that hide the arrows.

The helper modules follow the JavaScript semantics the code relies on:

- `Strings`: `trim`, `toLowerCase`, `includes`, `startsWith`, `split(' ')`,
  and the default string order of `sort`.
- `Seqs`: `filter`, and a stable sort under a comparator that is a total
  preorder.
- `Base`: optional values and identifiers.

Behaviours of the code that the model keeps as they are written:

- A header or a secret that is the empty string is treated as missing.
  JavaScript treats `""` as false, and the model keeps that.
- `register` stores the new user before it signs the token. If the signing
  secret is missing, the reply is 500 but the account stays stored
  (`Accounts.Register`).
- `register` looks up only the email. A second account may take a username
  that is already in use (`Accounts.RegisterAllowsTakenUsername`). Only the
  database's unique index stops that, and the index is not modelled.
- A duplicate save and a duplicate email are both answered with 400, not
  with a conflict status (`SaveList.Save`, `Accounts.Register`).
- The comment panel compares ids with `===`. The model gives those ids a
  type of their own that tells `null` from `undefined`, so `undefined ===
  undefined` holds and `null === undefined` does not. A panel given neither
  a current user nor a post owner counts its viewer as the post owner, and
  with moderation allowed that viewer may delete. The delete button still
  needs a signed-in user.
- The server answers a new comment without populating its author, so the
  comment put at the top of the list has an `undefined` author id. Until
  the list is fetched again, the signed-in author gets no Edit button on
  it. A moderating post owner sees the moderation label on it and gets
  the moderator's dialog; anyone else gets no Delete button
  (`CommentRules.PostedCommentLooksForeign`).

## Model

| member | source | states |
|---|---|---|
| SaveList.Save | backend/controllers/userController.js:3-24 | An unknown user gets 404 and an id already saved gets 400 "already saved". In both cases the store is unchanged. Otherwise the reply is 200: the list grows by one, the new id is last, earlier entries and other users' lists are unchanged, and the new list is returned. |
| SaveList.Unsave | backend/controllers/userController.js:37-54 | An unknown user gets 404 and nothing changes. Otherwise the reply is 200. The id no longer occurs anywhere in the list, every other id occurs as often as before, and an id that was not saved leaves the store unchanged. |
| SaveList.SavePreservesNoDuplicates | backend/controllers/userController.js:13-18 | Save keeps every list free of duplicates. |
| SaveList.UnsavePreservesNoDuplicates | backend/controllers/userController.js:45-47 | Unsave keeps every list free of duplicates. |
| SaveList.SaveTwiceConflicts | backend/controllers/userController.js:13-18 | Saving the same log a second time gets 400 and changes nothing, so the list has grown by exactly one. |
| SaveList.UnsaveIdempotent | backend/controllers/userController.js:45-50 | A second unsave of the same id gets the same status and leaves the store as the first unsave left it. |
| SaveList.SaveThenUnsave | backend/controllers/userController.js:13-47 | Unsave undoes a successful save exactly. |
| SaveList.UnsaveKeepsOrder | backend/controllers/userController.js:45-47 | Unsaving from a concatenation is unsaving from each part, so the remaining entries keep their relative order. |
| AuthMiddleware.Authenticate | backend/middleware/auth.js:3-70 | A missing or empty header gets 401. A header not starting with "Bearer " gets 401. An empty token gets 401. A missing secret gets 500, but only after the header checks pass. A successful verification calls `next` with the decoded id. Every verification error gets 401, with the message chosen by the error name. `next` is called if and only if every check passes and verification succeeds. |
| AuthMiddleware.SecondFieldIsBearerToken | backend/middleware/auth.js:22 | After the prefix check, `split(' ')[1]` is exactly the text after "Bearer " up to the next space. |
| AuthMiddleware.HeaderFailuresIgnoreSecret | backend/middleware/auth.js:10-37 | Every header failure gets 401 whatever the secret is. |
| AuthMiddleware.EmptyTokenExamples | backend/middleware/auth.js:22-31 | "Bearer " and "Bearer  x" both carry an empty token and get 401. |
| AuthMiddleware.VerifyFailureIs401 | backend/middleware/auth.js:49-68 | Every failure of `jwt.verify` is answered with 401. |
| Strings.JoinSplit | backend/middleware/auth.js:22 | The pieces of `split(' ')` joined back with spaces give the header back. |
| Accounts.Register | backend/controllers/authController.js:5-34 | A taken email gets 400 and the store is unchanged. Otherwise exactly one account is added, with the password stored as hash(password, salt). With a secret the reply is 201, carrying a token signed for the new id and only the id, username and email. Without a secret the reply is 500 and the account stays stored. |
| Accounts.Login | backend/controllers/authController.js:36-63 | The store never changes. An unknown email and a wrong password both get 400 "Invalid credentials". A match without a secret gets 500 "Server error". A match with a secret gets 200, carrying a token for the matching account and only its id, username and email. |
| Accounts.RegisterPreservesInvariants | backend/controllers/authController.js:10-21 | Register keeps every account filed under its own email. Given a fresh database id, it also keeps ids unique. |
| Accounts.LoginFailuresAlike | backend/controllers/authController.js:41-46 | An unknown email and a wrong password get identical replies. |
| Accounts.RegisterThenLogin | backend/controllers/authController.js:5-63 | Logging in with the password just registered gives 200 with a token signed for the new id and the same user as the registration reported, provided compare accepts a password against its own hash. When both were signed at the same time, the two tokens are equal. |
| Accounts.RegisterAllowsTakenUsername | backend/controllers/authController.js:10-11 | Register's own code does not reject a taken username: with a fresh email and a secret, it answers 201 and stores a second account with another account's username. |
| CommentRules.OnlyAuthorEdits | frontend/src/components/Comments.js:138-140 | Who may edit does not depend on who owns the post or whether the page allows moderation. A viewer without an id may not edit a comment whose author id is known, and the author always may. |
| CommentRules.DeleteRights | frontend/src/components/Comments.js:142-146 | A viewer may delete if and only if the viewer is the author, or moderation is allowed and the viewer owns the post. With moderation off, only the author may delete. Anyone who may edit may delete. |
| CommentRules.ModerateLabelMeansModeratorOnly | frontend/src/components/Comments.js:281 | The "can moderate" label shows if and only if the viewer may delete the comment but not edit it, that is, moderation is on, the viewer owns the post and is not the author. |
| CommentRules.DeleteButtonHolder | frontend/src/components/Comments.js:98-129 | Pressing a visible delete button and confirming sends the delete request for that comment, and a server success leaves no entry with its id. |
| CommentRules.Submit | frontend/src/components/Comments.js:30-56 | A request is sent if and only if the draft is not all whitespace and a login token exists. The request carries the trimmed, non-empty draft. A server answer is put at the front of the list (length +1, rest unchanged) and the draft is cleared. Otherwise the list and the draft are kept. |
| CommentRules.Update | frontend/src/components/Comments.js:72-96 | A request is sent if and only if the edit text is not all whitespace, and it carries the trimmed text. A server answer replaces exactly the entries with that id and closes the editor. The length never changes. |
| CommentRules.HandleDelete | frontend/src/components/Comments.js:98-129 | A viewer who is neither author nor moderating post owner gets no dialog and no request. A request is sent if and only if the viewer is permitted and confirms. The moderator wording is used if and only if the viewer moderates and is not the author, and the author always gets the author's wording. A success removes every entry with that id and keeps every other entry as often as before. |
| CommentRules.ModeratorPromptMatchesLabel | frontend/src/components/Comments.js:98-112 | The dialog uses the moderator's wording if and only if the comment shows the "(You can moderate this comment)" label. |
| CommentRules.DeleteKeepsOrder | frontend/src/components/Comments.js:120-122 | A delete on a list split in two acts as the same delete on each part, so the remaining comments keep their order. |
| CommentRules.PostedCommentLooksForeign | frontend/src/components/Comments.js:42-47 | For a signed-in viewer, the comment just posted (its author id `undefined`, as the add request's reply leaves it) goes to the top of the list, cannot be edited, and shows a Delete button and the moderation label exactly when the viewer is the moderating post owner, who then gets the moderator's dialog. |
| CommentRules.DeleteButtonAgreesWithHandler | frontend/src/components/Comments.js:98-146 | For a comment, `handleDelete` goes past the permission check if and only if `canDeleteComment` holds. |
| SavedLogsView.ModeOf | frontend/src/pages/SavedLogs.js:90-101 | "oldest" and "alphabetical" select their own orders, and every other key sorts newest first. |
| SavedLogsView.ApplyFilters | frontend/src/pages/SavedLogs.js:69-104 | The result holds exactly the logs that pass both filters, each as often as it was saved. A log passes if the query is empty or its lower-cased location contains the lower-cased query, and if no tags are selected or some selected tag equals one of its lower-cased tags. The result is in non-increasing createdAt order for "newest" (and unknown keys), non-decreasing for "oldest", and title order for "alphabetical". |
| SavedLogsView.ApplyFiltersKeepsTies | frontend/src/pages/SavedLogs.js:69-104 | Logs that the sort key ranks equal appear in the result in the order they have among the saved logs, because the sort is stable. |
| SavedLogsView.FilteredAreSaved | frontend/src/pages/SavedLogs.js:70-103 | The filtered list is a sub-multiset of the saved logs and is no longer than them. |
| SavedLogsView.ToggleTag | frontend/src/pages/SavedLogs.js:110-117 | A selected tag is removed everywhere and every other tag is kept as often as before. An unselected tag is appended. |
| SavedLogsView.ToggleTwiceSelected | frontend/src/pages/SavedLogs.js:110-117 | Toggling a selected tag twice restores the set of selected tags. |
| SavedLogsView.ToggleTwiceUnselected | frontend/src/pages/SavedLogs.js:110-117 | Toggling an unselected tag twice restores the exact selection. |
| SavedLogsView.ActiveFilterCount | frontend/src/pages/SavedLogs.js:131-136 | The count is at most 2. It is 0 exactly when the query and the selection are both empty, and 2 exactly when both are set. |
| SavedLogsView.NoActiveFilterShowsAll | frontend/src/pages/SavedLogs.js:72-87 | With no active filter, every saved log is shown. |
| SavedLogsView.ClearFilters | frontend/src/pages/SavedLogs.js:123-129 | Clearing leaves no active filter and sets the sort to "newest", newest first. |
| SavedLogsView.LoweredTags | frontend/src/pages/SavedLogs.js:48-53 | Contains exactly the lower-cased tags of the given logs. |
| SavedLogsView.AvailableTags | frontend/src/pages/SavedLogs.js:47-54 | The offered tags are exactly the lower-cased tags of the logs, without duplicates, in ascending character order. |
| SavedLogsView.UnsaveOnPage | frontend/src/pages/SavedLogs.js:164-176 | After an unsave the id is absent from both lists. Every other log stays in each list as often as before. The offered tags are exactly the lower-cased tags of the remaining logs, each once, in ascending character order. |
| SavedLogsView.UnsaveOnPageKeepsOrder | frontend/src/pages/SavedLogs.js:165-166 | An unsave on lists split in two acts as the same unsave on each part, so both lists keep the order of the remaining logs. |
| SavedLogsView.UnsaveKeepsPageConsistent | frontend/src/pages/SavedLogs.js:164-176 | If the shown list was the filtered, sorted view of the saved logs before an unsave, it still is afterwards, up to the order of ties. |
| Seqs.FilterCount | backend/controllers/userController.js:45-47 | A `filter` keeps each element that passes as often as it occurs and drops the rest. |
| Seqs.SortBy | frontend/src/pages/SavedLogs.js:90-101 | Sorting gives a permutation ordered by the comparator. |
| Seqs.SortByIsStable | frontend/src/pages/SavedLogs.js:90-101 | The sort is stable: elements the comparator ranks equal keep their input order. |
| Strings.Contains | frontend/src/pages/SavedLogs.js:75 | `includes` holds if and only if the query occurs as a contiguous window of the text. |
| Strings.Trim | frontend/src/components/Comments.js:32 | `trim` returns a window of the text with only whitespace on either side of it. It gives the empty string if and only if the text is all whitespace. Otherwise the result neither starts nor ends with whitespace. |
| Strings.TrimIdempotent | frontend/src/components/Comments.js:44 | Trimming text that was already trimmed changes nothing. |
| Strings.StrLessIsStrictTotalOrder | frontend/src/pages/SavedLogs.js:54 | The default order `sort` uses on strings is a strict total order. |
| Carousel.Next | frontend/src/components/ImageCarousel.js:8-10 | With n > 0 and the index in range, next stays in [0, n) and wraps from the last image to the first. |
| Carousel.Prev | frontend/src/components/ImageCarousel.js:12-14 | With n > 0 and the index in range, prev stays in [0, n) and wraps from the first image to the last. |
| Carousel.PrevUndoesNext | frontend/src/components/ImageCarousel.js:8-14 | Next then prev, and prev then next, both return to the starting index. |
| Carousel.ForwardIsAddition | frontend/src/components/ImageCarousel.js:8-10 | k presses of next move the index to (i + k) mod n. |
| Carousel.FullCycle | frontend/src/components/ImageCarousel.js:8-10 | n presses of next return to the starting image. |
| Carousel.ArrowsNavigateWithinRange | frontend/src/components/ImageCarousel.js:8-69 | In the frame `Render` draws, arrows show only with more than one image, so neither handler divides by zero. Pressing either arrow lands on an image whose frame still shows the arrows, with the counter in 1..n. |
| Carousel.CounterInRange | frontend/src/components/ImageCarousel.js:68 | With the index in range, the counter lies in 1..n. |

## Left out

- Database access, `populate`, `user.save()` failures and the 500 answers of the `catch` blocks are not modelled, except the 500 that `jwt.sign` causes in `register` and `login` when the secret is missing. The model covers the decisions the handlers make on the data they read.
- The unique index on usernames and emails in the user schema is database behaviour and is not modelled. A duplicate username would surface as a 500 from `user.save()`.
- Missing request-body fields (`undefined` email, password or log id) are not modelled. Every input is a string.
- bcrypt and JSON Web Tokens are function parameters, with no cryptography. The token expiry ("1d") belongs to `jwt.sign` and `jwt.verify`.
- Accounts.RegisterThenLogin: `jwt.sign` stamps the current time into each token (`iat`, and `exp` one day later). The clock is the `now` input of `Register` and `Login`, so the lemma equates the two tokens only when both were signed at the same time.
- `getSavedLogs` only reads and populates, so it has no decision to model.
- Logging, `localStorage`, the token-payload decoding with `atob`, `alert` and `window.confirm` are left out. For `Submit` and `HandleDelete`, the dialog answer and the presence of a token are inputs. React state, effects and re-rendering are left out too.
- Routing and server start-up are left out: which handlers are reachable over HTTP is not modelled.
- Travel-log and comment handlers on the server are not modelled. `createTravelLog`, `getAllTravelLogs`, `addComment` and `getCommentsForLog` store or list documents and make no decision. `backend/routes/travelLog.js` imports `getTravelLogById`, `updateTravelLog`, `deleteTravelLog` and `getPersonalLogs`, but `travelLogController.js` does not define them, so no code for them exists. No server handler exists for the comment edit and delete requests the panel sends.
- Strings.ToLower: only ASCII letters are lower-cased. JavaScript's full Unicode case mapping is not modelled.
- Strings.StrLessIsStrictTotalOrder: strings are compared by code point. `sort` compares UTF-16 code units, and the two orders differ only for characters outside the Basic Multilingual Plane.
- SavedLogsView.ApplyFilters: `localeCompare` is an abstract total preorder on titles, and `Date` values are integers.
- SavedLogsView.UnsaveOnPage: only an unsave the server accepted is modelled. The missing-token alert (SavedLogs.js lines 146-150), the cancelled confirm (lines 152-154) and the failed request (lines 177-180) leave the page unchanged and are not modelled.
- SavedLogsView.UnsaveKeepsPageConsistent: page consistency is stated up to the order of logs the sort key ranks equal. Line 166 filters the shown list, and the filter effect then recomputes it from the remaining logs. That the two lists agree exactly, tie order included, is not proved.
- Carousel.Next: an index left out of range by a change of the `images` prop is not modelled. The handlers are modelled for an index in [0, n).
- Carousel.Prev: an index left out of range by a change of the `images` prop is not modelled. The handler is modelled for an index in [0, n).

=== FILE: Accounts.dfy ===
/** Registration and login from the auth controller, as transitions of a
    user store keyed by email. Hashing (`bcrypt.hash`), hash comparison
    (`bcrypt.compare`) and token signing (`jwt.sign`) are uninterpreted
    functions passed in; the salt, the id the database assigns and the
    clock reading `jwt.sign` stamps into a token (`now`) are inputs. */
module Accounts {
  import opened Base

  /** A stored user; `password` holds the hash, never the plain text. */
  datatype Account = Account(id: UserId, username: string, email: string, password: string)

  /** Users by email, the key both handlers look users up by. */
  type Store = map<string, Account>

  /** The `user` object of a response: the password is not a field of it. */
  datatype PublicUser = PublicUser(id: UserId, username: string, email: string)

  datatype Reply =
    | Issued(status: nat, token: string, user: PublicUser)
    | Error(status: nat, msg: string)

  datatype Step = Step(reply: Reply, store: Store)

  const UserExists := "User already exists"
  const InvalidCredentials := "Invalid credentials"
  const ServerError := "Server error"

  /** Every account is filed under its own email. */
  predicate WellKeyed(store: Store) {
    forall e :: e in store ==> store[e].email == e
  }

  /** No two accounts share an id. */
  predicate UniqueIds(store: Store) {
    forall e1, e2 :: e1 in store && e2 in store && e1 != e2 ==> store[e1].id != store[e2].id
  }

  function Public(a: Account): PublicUser {
    PublicUser(a.id, a.username, a.email)
  }

  /** `register`. A taken email is a 400 and nothing is stored. Otherwise
      the account is stored with the hashed password before the token is
      signed, so a missing secret (signing throws) answers 500 but leaves
      the new account in the store. */
  function Register(store: Store, username: string, email: string, password: string,
                    salt: string, newId: UserId, secret: Option<string>, now: int,
                    hash: (string, string) -> string, sign: (UserId, string, int) -> string): (t: Step)
    ensures email in store ==> t == Step(Error(400, UserExists), store)
    ensures email !in store ==>
              && t.store.Keys == store.Keys + {email}
              && (forall e :: e in store ==> t.store[e] == store[e])
              && t.store[email] == Account(newId, username, email, hash(password, salt))
    ensures t.reply.Issued? <==> email !in store && Truthy(secret)
    ensures t.reply.Issued? ==>
              t.reply == Issued(201, sign(newId, secret.value, now), Public(t.store[email]))
    ensures email !in store && !Truthy(secret) ==> t.reply == Error(500, ServerError)
  {
    if email in store then Step(Error(400, UserExists), store)
    else
      var account := Account(newId, username, email, hash(password, salt));
      var store' := store[email := account];
      if !Truthy(secret) then Step(Error(500, ServerError), store')
      else Step(Issued(201, sign(newId, secret.value, now), Public(account)), store')
  }

  /** `login`. An unknown email and a wrong password give the same 400; a
      match gives a 200 with a token for the matching account, or a 500
      when there is no secret to sign with. The store is never changed. */
  function Login(store: Store, email: string, password: string, secret: Option<string>, now: int,
                 compare: (string, string) -> bool, sign: (UserId, string, int) -> string): (t: Step)
    ensures t.store == store
    ensures email !in store ==> t.reply == Error(400, InvalidCredentials)
    ensures email in store && !compare(password, store[email].password) ==>
              t.reply == Error(400, InvalidCredentials)
    ensures t.reply.Issued? <==>
              email in store && compare(password, store[email].password) && Truthy(secret)
    ensures t.reply.Issued? ==>
              t.reply == Issued(200, sign(store[email].id, secret.value, now), Public(store[email]))
    ensures email in store && compare(password, store[email].password) && !Truthy(secret) ==>
              t.reply == Error(500, ServerError)
  {
    if email !in store then Step(Error(400, InvalidCredentials), store)
    else
      var account := store[email];
      if !compare(password, account.password) then Step(Error(400, InvalidCredentials), store)
      else if !Truthy(secret) then Step(Error(500, ServerError), store)
      else Step(Issued(200, sign(account.id, secret.value, now), Public(account)), store)
  }

  /** Registration keeps the store keyed by email and, given a fresh id
      from the database, keeps ids unique. */
  lemma RegisterPreservesInvariants(store: Store, username: string, email: string, password: string,
                                    salt: string, newId: UserId, secret: Option<string>, now: int,
                                    hash: (string, string) -> string, sign: (UserId, string, int) -> string)
    requires WellKeyed(store) && UniqueIds(store)
    requires forall e :: e in store ==> store[e].id != newId
    ensures var t := Register(store, username, email, password, salt, newId, secret, now, hash, sign);
            WellKeyed(t.store) && UniqueIds(t.store)
  {
  }

  /** A failed login says nothing about which check failed. */
  lemma LoginFailuresAlike(store: Store, known: string, unknown: string, password: string,
                           secret: Option<string>, now: int, compare: (string, string) -> bool,
                           sign: (UserId, string, int) -> string)
    requires unknown !in store
    requires known in store && !compare(password, store[known].password)
    ensures Login(store, unknown, password, secret, now, compare, sign).reply
         == Login(store, known, password, secret, now, compare, sign).reply
  {
  }

  /** Logging in with the password just registered issues a token for the
      new account and reports the same user as the registration did,
      provided `compare` accepts a password against its own hash. The two
      tokens are signed at the two handlers' own times, so they agree only
      when those times do. */
  lemma RegisterThenLogin(store: Store, username: string, email: string, password: string,
                          salt: string, newId: UserId, secret: string, registeredAt: int, loggedInAt: int,
                          hash: (string, string) -> string, compare: (string, string) -> bool,
                          sign: (UserId, string, int) -> string)
    requires email !in store && secret != ""
    requires compare(password, hash(password, salt))
    ensures var r := Register(store, username, email, password, salt, newId, Some(secret), registeredAt, hash, sign);
            var l := Login(r.store, email, password, Some(secret), loggedInAt, compare, sign);
            && l.reply == Issued(200, sign(newId, secret, loggedInAt), PublicUser(newId, username, email))
            && l.reply.user == r.reply.user
            && (registeredAt == loggedInAt ==> l.reply.token == r.reply.token)
  {
  }

  /** Only the email is checked: an account may be registered under a
      username another account already has. */
  lemma RegisterAllowsTakenUsername(store: Store, other: string, email: string, password: string,
                                    salt: string, newId: UserId, secret: string, now: int,
                                    hash: (string, string) -> string, sign: (UserId, string, int) -> string)
    requires other in store && email !in store && secret != ""
    ensures var t := Register(store, store[other].username, email, password, salt, newId, Some(secret), now, hash, sign);
            && t.reply.status == 201
            && other != email
            && t.store[other].username == t.store[email].username
  {
  }
}

=== FILE: AuthMiddleware.dfy ===
/** The bearer-token middleware that guards the authenticated routes. It
    either passes the request on (`next()`, with `req.user` bound to the id
    the token carries) or answers it with a status and a JSON body.
    Signature checking is an oracle: `verify(token, secret)` stands for
    `jwt.verify`, which returns a payload or throws a named error. */
module AuthMiddleware {
  import opened Base
  import opened Strings

  /** The `name` and `message` of the error `jwt.verify` throws. */
  datatype VerifyError = VerifyError(name: string, message: string)

  /** What `jwt.verify` does with a token: a payload whose `id` may be
      missing, or a thrown error. */
  datatype Verdict = Decoded(id: Option<UserId>) | Thrown(err: VerifyError)

  /** The JSON body of a rejection. */
  datatype Body =
    | Msg(msg: string)
    | MsgWithDebug(msg: string, error: string, tokenLength: nat, tokenStart: string)
    | MsgWithError(msg: string, error: string)

  /** `Next(u)`: `req.user := u; next()`. `Respond`: `res.status(s).json(b)`,
      and `next` is not called. */
  datatype Outcome = Next(user: Option<UserId>) | Respond(status: nat, body: Body)

  const Prefix := "Bearer "
  const NoHeader := "No Authorization header, authorization denied"
  const BadPrefix := "Authorization header must start with \"Bearer \""
  const NoToken := "No token found, authorization denied"
  const NoSecret := "Server configuration error"
  const Expired := "Token has expired, please login again"
  const Malformed := "Invalid token format"
  const Failed := "Token verification failed"

  /** `header.split(' ')[1]`, which is `undefined` when there is no space. */
  function SecondField(header: string): Option<string> {
    var parts := Split(header, ' ');
    if |parts| > 1 then Some(parts[1]) else None
  }

  /** The token as a reader of the header format would describe it: the
      characters after "Bearer " up to the next space or the end. */
  function BearerToken(header: string): string
    requires StartsWith(header, Prefix)
  {
    var rest := header[|Prefix|..];
    rest[..IndexOf(rest, ' ')]
  }

  /** Once the prefix check has passed, the second space-separated field is
      exactly the bearer token. */
  lemma SecondFieldIsBearerToken(header: string)
    requires StartsWith(header, Prefix)
    ensures SecondField(header) == Some(BearerToken(header))
  {
    assert header[..7] == Prefix;
    assert forall k :: 0 <= k < 6 ==> header[k] == Prefix[k] && header[k] != ' ';
    assert header[6] == ' ';
    var i := IndexOf(header, ' ');
    assert i == 6;
    var parts := Split(header, ' ');
    assert parts == [header[..6]] + Split(header[7..], ' ');
  }

  /** The 401 body for a verification failure, chosen by the error's name. */
  function FailureBody(err: VerifyError, token: string): Body {
    if err.name == "TokenExpiredError" then Msg(Expired)
    else if err.name == "JsonWebTokenError" then
      MsgWithDebug(Malformed, err.message, |token|, token[..if |token| < 20 then |token| else 20])
    else MsgWithError(Failed, err.message)
  }

  /** The middleware: no header, wrong prefix, empty token and missing
      secret are checked in that order, then the token is verified. */
  function Authenticate(header: Option<string>, secret: Option<string>,
                        verify: (string, string) -> Verdict): (o: Outcome)
    ensures !Truthy(header) ==> o == Respond(401, Msg(NoHeader))
    ensures Truthy(header) && !StartsWith(header.value, Prefix) ==> o == Respond(401, Msg(BadPrefix))
    ensures Truthy(header) && StartsWith(header.value, Prefix) && BearerToken(header.value) == "" ==>
              o == Respond(401, Msg(NoToken))
    ensures Truthy(header) && StartsWith(header.value, Prefix) && BearerToken(header.value) != "" ==>
              var token := BearerToken(header.value);
              && (!Truthy(secret) ==> o == Respond(500, Msg(NoSecret)))
              && (Truthy(secret) ==>
                    match verify(token, secret.value)
                    case Decoded(id) => o == Next(id)
                    case Thrown(err) => o == Respond(401, FailureBody(err, token)))
    ensures o.Respond? ==> o.status == 401 || o.status == 500
    ensures o.Next? <==>
              && Truthy(header) && StartsWith(header.value, Prefix)
              && BearerToken(header.value) != "" && Truthy(secret)
              && verify(BearerToken(header.value), secret.value).Decoded?
  {
    if !Truthy(header) then Respond(401, Msg(NoHeader))
    else if !StartsWith(header.value, Prefix) then Respond(401, Msg(BadPrefix))
    else
      SecondFieldIsBearerToken(header.value);
      var token := SecondField(header.value);
      if !Truthy(token) then Respond(401, Msg(NoToken))
      else if !Truthy(secret) then Respond(500, Msg(NoSecret))
      else
        match verify(token.value, secret.value)
        case Decoded(id) => Next(id)
        case Thrown(err) => Respond(401, FailureBody(err, token.value))
  }

  /** A header failure is a 401 whatever the server's configuration: the
      secret is consulted only after the header checks pass. */
  lemma HeaderFailuresIgnoreSecret(header: Option<string>, s1: Option<string>, s2: Option<string>,
                                   verify: (string, string) -> Verdict)
    requires !Truthy(header) || !StartsWith(header.value, Prefix) || BearerToken(header.value) == ""
    ensures Authenticate(header, s1, verify) == Authenticate(header, s2, verify)
    ensures Authenticate(header, s1, verify).Respond?
    ensures Authenticate(header, s1, verify).status == 401
  {
  }

  /** "Bearer " with nothing after it, or with a second space straight
      after it, carries no token. */
  lemma EmptyTokenExamples(verify: (string, string) -> Verdict, secret: Option<string>)
    ensures Authenticate(Some("Bearer "), secret, verify) == Respond(401, Msg(NoToken))
    ensures Authenticate(Some("Bearer  x"), secret, verify) == Respond(401, Msg(NoToken))
  {
    assert StartsWith("Bearer ", Prefix) && "Bearer "[|Prefix|..] == "";
    assert StartsWith("Bearer  x", Prefix) && "Bearer  x"[|Prefix|..] == " x";
    assert IndexOf(" x", ' ') == 0;
  }

  /** Every rejection by `jwt.verify` is a 401, whatever the error. */
  lemma VerifyFailureIs401(header: string, secret: string, verify: (string, string) -> Verdict)
    requires StartsWith(header, Prefix) && BearerToken(header) != "" && secret != ""
    requires verify(BearerToken(header), secret).Thrown?
    ensures Authenticate(Some(header), Some(secret), verify).Respond?
    ensures Authenticate(Some(header), Some(secret), verify).status == 401
  {
  }
}

=== FILE: Base.dfy ===
/** Identifiers and the optional-value type shared by every model. */
module Base {

  /** A value JavaScript may leave `undefined` or `null`. The two are folded
      into one `None` wherever the code only tests truthiness; the comment
      panel, which compares ids with `===` and so tells `null` from
      `undefined`, has an id type of its own. */
  datatype Option<T> = None | Some(value: T)

  /** JavaScript truthiness of an optional string: absent and empty are
      both false. */
  predicate Truthy(s: Option<string>) {
    s.Some? && s.value != ""
  }

  /** Document identifiers, as the strings the client and the server compare. */
  type UserId = string
  type LogId = string
  type CommentId = string
}

=== FILE: Carousel.dfy ===
/** Index arithmetic of the image carousel. The component keeps the index
    of the image on display; `handleNext` and `handlePrev` move it with
    wrap-around. It renders nothing for an empty image list and shows the
    arrows and the "k / n" counter only when there is more than one image,
    so the handlers only ever run with at least one image and an index in
    range. */
module Carousel {

  /** JavaScript's `%`: the remainder takes the sign of the dividend. */
  function JsRem(a: int, b: int): (r: int)
    requires b != 0
    ensures a >= 0 && b > 0 ==> r == a % b
  {
    var m := (if a < 0 then -a else a) % (if b < 0 then -b else b);
    if a < 0 then -m else m
  }

  /** `handleNext`: `(prev + 1) % images.length`. */
  function Next(i: int, n: int): (r: int)
    requires 0 <= i < n
    ensures 0 <= r < n
    ensures r == if i == n - 1 then 0 else i + 1
  {
    JsRem(i + 1, n)
  }

  /** `handlePrev`: `(prev - 1 + images.length) % images.length`. */
  function Prev(i: int, n: int): (r: int)
    requires 0 <= i < n
    ensures 0 <= r < n
    ensures r == if i == 0 then n - 1 else i - 1
  {
    JsRem(i - 1 + n, n)
  }

  /** Back and forward undo each other. */
  lemma PrevUndoesNext(i: int, n: int)
    requires 0 <= i < n
    ensures Prev(Next(i, n), n) == i
    ensures Next(Prev(i, n), n) == i
  {
  }

  /** `k` presses of the forward arrow. */
  function Forward(i: int, n: int, k: nat): (r: int)
    requires 0 <= i < n
    ensures 0 <= r < n
  {
    if k == 0 then i else Next(Forward(i, n, k - 1), n)
  }

  /** `k` forward presses advance the index by `k`, modulo the count. */
  lemma {:induction false} ForwardIsAddition(i: int, n: int, k: nat)
    requires 0 <= i < n
    ensures Forward(i, n, k) == (i + k) % n
  {
    if k > 0 {
      ForwardIsAddition(i, n, k - 1);
      var j := Forward(i, n, k - 1);
      assert j == (i + k - 1) % n;
      ModStep(i + k - 1, n);
    }
  }

  lemma ModStep(a: nat, n: int)
    requires n > 0
    ensures (if a % n == n - 1 then 0 else a % n + 1) == (a + 1) % n
  {
    var q, r := a / n, a % n;
    if r == n - 1 {
      ModUnique(a + 1, n, q + 1, 0);
    } else {
      ModUnique(a + 1, n, q, r + 1);
    }
  }

  /** The remainder is the only one: `a = q * n + r` with `0 <= r < n`
      fixes `r`. */
  lemma ModUnique(a: int, n: int, q: int, r: int)
    requires n > 0 && 0 <= r < n && a == q * n + r
    ensures a % n == r
  {
    var q', r' := a / n, a % n;
    assert (q - q') * n == r' - r;
    if q - q' >= 1 {
      MulAtLeast(q - q', n);
    } else if q' - q >= 1 {
      MulAtLeast(q' - q, n);
    }
  }

  lemma MulAtLeast(d: int, n: int)
    requires d >= 1 && n > 0
    ensures d * n >= n
  {
  }

  /** Going forward once per image comes back to the starting image. */
  lemma FullCycle(i: int, n: int)
    requires 0 <= i < n
    ensures Forward(i, n, n) == i
  {
    ForwardIsAddition(i, n, n);
    ModUnique(i + n, n, 1, i);
  }

  /** What the component renders for `n` images at index `i`: nothing, or
      the image with, when there are several, the arrows and the counter. */
  datatype Frame = Blank | Frame(image: int, arrows: bool, counter: int, total: int)

  function Render(n: nat, i: int): Frame {
    if n == 0 then Blank else Frame(i, n > 1, i + 1, n)
  }

  /** With the index in range, the counter reads between 1 and n. */
  lemma CounterInRange(n: nat, i: int)
    requires 0 <= i < n
    ensures Render(n, i).Frame? && 1 <= Render(n, i).counter <= n
  {
  }

  /** The arrows are on screen only with more than one image, so the
      divisor of both handlers is never zero; pressing either arrow lands on
      an index in range, the arrows stay, and the counter reads between 1
      and n again. */
  lemma ArrowsNavigateWithinRange(n: nat, i: int)
    requires 0 <= i < n
    ensures Render(n, i).arrows ==> n > 1
    ensures Render(n, i).arrows ==>
              && Render(n, Next(i, n)).Frame? && Render(n, Next(i, n)).arrows
              && 1 <= Render(n, Next(i, n)).counter <= n
              && Render(n, Prev(i, n)).Frame? && Render(n, Prev(i, n)).arrows
              && 1 <= Render(n, Prev(i, n)).counter <= n
  {
  }
}

=== FILE: CommentRules.dfy ===
/** The decision rules and list updates of the client's comment panel: who
    may edit or delete a comment (authors always, the post owner too when
    the panel allows moderation), which request a submit, an edit or a
    delete sends, and how the displayed list changes when the server
    answers. Server answers and the user's reply to the confirmation
    dialog are inputs. */
module CommentRules {
  import opened Base
  import opened Strings
  import opened Seqs

  /** A user id as the panel reads it. JavaScript tells `null` from
      `undefined` under `===`, and both occur: the pages start the current
      user as `null`, while a missing prop or a missing field reads as
      `undefined`. Structural equality of this type is JavaScript's `===`. */
  datatype UserRef = Undefined | Null | Id(value: UserId)

  /** JavaScript truthiness of an id: absent and empty are both false. */
  predicate TruthyRef(r: UserRef) {
    r.Id? && r.value != ""
  }

  /** A comment in the panel's list. `author` is `comment.user._id`: the
      fetched list populates `user`, so it is an id there, but the reply to
      a new comment leaves `user` a bare id string, whose `_id` is
      `undefined`. */
  datatype Comment = Comment(id: CommentId, author: UserRef, authorName: string,
                             text: string, createdAt: int)

  /** The panel's props: who is looking, who owns the post, and whether the
      page enables moderation (the dashboard does, the saved-logs page does
      not). Either id may be `null` or `undefined`. */
  datatype Viewer = Viewer(currentUserId: UserRef, logOwnerId: UserRef,
                           allowModeration: bool)

  /** The requests the panel sends. */
  datatype Request = Post(logId: LogId, text: string) | Put(commentId: CommentId, text: string)
                   | Delete(commentId: CommentId)

  const AuthorPrompt := "Are you sure you want to delete your comment?"
  const ModeratorPrompt := "As the post owner, are you sure you want to delete this comment?"

  predicate IsAuthor(v: Viewer, author: UserRef) {
    v.currentUserId == author
  }

  /** `isPostOwner`: moderation is on and the viewer is the post's owner. */
  predicate IsModerator(v: Viewer) {
    v.allowModeration && v.currentUserId == v.logOwnerId
  }

  /** `canEditComment`. */
  predicate CanEdit(v: Viewer, c: Comment) {
    IsAuthor(v, c.author)
  }

  /** `canDeleteComment`. */
  predicate CanDelete(v: Viewer, c: Comment) {
    IsAuthor(v, c.author) || IsModerator(v)
  }

  /** The "(You can moderate this comment)" label. */
  predicate ShowsModerateLabel(v: Viewer, c: Comment) {
    v.allowModeration && v.currentUserId == v.logOwnerId && v.currentUserId != c.author
  }

  /** The delete button: only for a signed-in viewer who may delete. */
  predicate ShowsDeleteButton(v: Viewer, c: Comment) {
    TruthyRef(v.currentUserId) && CanDelete(v, c)
  }

  /** Only a comment's author may edit it: neither owning the post nor the
      page's moderation setting changes who may, a viewer without an id may
      not edit a comment whose author id is known, and the author always
      may. */
  lemma OnlyAuthorEdits(v: Viewer, c: Comment, owner: UserRef, moderation: bool)
    ensures CanEdit(Viewer(v.currentUserId, owner, moderation), c) == CanEdit(v, c)
    ensures c.author.Id? && !v.currentUserId.Id? ==> !CanEdit(v, c)
    ensures CanEdit(Viewer(c.author, owner, moderation), c)
  {
  }

  /** Deletion is open to the author and to the moderating post owner, and
      with moderation off it is open to exactly the editors. */
  lemma DeleteRights(v: Viewer, c: Comment)
    ensures CanDelete(v, c) <==> CanEdit(v, c) || (v.allowModeration && v.currentUserId == v.logOwnerId)
    ensures !v.allowModeration ==> (CanDelete(v, c) <==> CanEdit(v, c))
    ensures CanEdit(v, c) ==> CanDelete(v, c)
  {
  }

  /** The moderation label marks exactly the comments the viewer may
      delete but not edit. */
  lemma ModerateLabelMeansModeratorOnly(v: Viewer, c: Comment)
    ensures ShowsModerateLabel(v, c) <==> CanDelete(v, c) && !CanEdit(v, c)
  {
  }

  /** A visible delete button leads to a delete request once the dialog is
      confirmed, and, if the server agrees, the comment leaves the list. */
  lemma DeleteButtonHolder(v: Viewer, comments: seq<Comment>, c: Comment, serverOk: bool)
    requires ShowsDeleteButton(v, c)
    ensures var s := HandleDelete(v, comments, c.id, c.author, true, serverOk);
            && s.request == Some(Delete(c.id))
            && (serverOk ==> forall i :: 0 <= i < |s.comments| ==> s.comments[i].id != c.id)
  {
  }

  /** Replaces the comment with the given id by the server's copy. */
  function ReplaceById(comments: seq<Comment>, id: CommentId, updated: Comment): (r: seq<Comment>)
    ensures |r| == |comments|
    ensures forall i :: 0 <= i < |r| ==> r[i] == if comments[i].id == id then updated else comments[i]
  {
    if comments == [] then []
    else [if comments[0].id == id then updated else comments[0]] + ReplaceById(comments[1..], id, updated)
  }

  function Except(id: CommentId): Comment -> bool {
    (c: Comment) => c.id != id
  }

  /** Result of `handleSubmit`: the request sent, the list shown, the draft. */
  datatype SubmitStep = SubmitStep(request: Option<Request>, comments: seq<Comment>, draft: string)

  /** `handleSubmit`. A whitespace-only draft or a missing login token sends
      nothing; otherwise the trimmed draft is posted, and the server's
      comment, if it answers, goes to the top of the list and the draft is
      cleared. */
  function Submit(logId: LogId, comments: seq<Comment>, draft: string, hasToken: bool,
                  answer: Option<Comment>): (s: SubmitStep)
    ensures s.request.Some? <==> !AllWhitespace(draft) && hasToken
    ensures s.request.Some? ==>
              && s.request == Some(Post(logId, Trim(draft)))
              && Trim(draft) != []
              && !IsWhitespace(Trim(draft)[0]) && !IsWhitespace(Trim(draft)[|Trim(draft)| - 1])
    ensures s.request.Some? && answer.Some? ==>
              && |s.comments| == |comments| + 1
              && s.comments[0] == answer.value
              && s.comments[1..] == comments
              && s.draft == ""
    ensures s.request.None? || answer.None? ==> s.comments == comments && s.draft == draft
  {
    var text := Trim(draft);
    if text == [] || !hasToken then SubmitStep(None, comments, draft)
    else
      match answer
      case Some(c) => SubmitStep(Some(Post(logId, text)), [c] + comments, "")
      case None => SubmitStep(Some(Post(logId, text)), comments, draft)
  }

  /** Result of `handleUpdate`: the request, the list, the comment still
      being edited and the edit text. */
  datatype UpdateStep = UpdateStep(request: Option<Request>, comments: seq<Comment>,
                                   editingId: Option<CommentId>, editText: string)

  /** `handleUpdate`. A whitespace-only edit sends nothing; otherwise the
      trimmed text is sent, and the server's copy replaces exactly the
      entries with that id while the editor closes. */
  function Update(commentId: CommentId, comments: seq<Comment>, editingId: Option<CommentId>,
                  editText: string, answer: Option<Comment>): (s: UpdateStep)
    ensures s.request.Some? <==> !AllWhitespace(editText)
    ensures s.request.Some? ==> s.request == Some(Put(commentId, Trim(editText))) && Trim(editText) != []
    ensures |s.comments| == |comments|
    ensures s.request.Some? && answer.Some? ==>
              && (forall i :: 0 <= i < |comments| && comments[i].id == commentId ==> s.comments[i] == answer.value)
              && (forall i :: 0 <= i < |comments| && comments[i].id != commentId ==> s.comments[i] == comments[i])
              && s.editingId == None && s.editText == ""
    ensures s.request.None? || answer.None? ==>
              s.comments == comments && s.editingId == editingId && s.editText == editText
  {
    var text := Trim(editText);
    if text == [] then UpdateStep(None, comments, editingId, editText)
    else
      match answer
      case Some(c) => UpdateStep(Some(Put(commentId, text)), ReplaceById(comments, commentId, c), None, "")
      case None => UpdateStep(Some(Put(commentId, text)), comments, editingId, editText)
  }

  /** Result of `handleDelete`: the confirmation shown, the request, the list. */
  datatype DeleteStep = DeleteStep(prompt: Option<string>, request: Option<Request>, comments: seq<Comment>)

  /** `handleDelete`. Someone who is neither the author nor the moderating
      post owner is turned away before any dialog; the others are asked to
      confirm (in the moderator's words only when they did not write the
      comment), and a confirmed delete that the server accepts removes every
      entry with that id. */
  function HandleDelete(v: Viewer, comments: seq<Comment>, commentId: CommentId, commentUserId: UserRef,
                        confirmed: bool, serverOk: bool): (s: DeleteStep)
    ensures s.request.Some? <==> (IsAuthor(v, commentUserId) || IsModerator(v)) && confirmed
    ensures s.request.Some? ==> s.request == Some(Delete(commentId))
    ensures s.prompt.Some? <==> IsAuthor(v, commentUserId) || IsModerator(v)
    ensures s.prompt == Some(ModeratorPrompt) <==> IsModerator(v) && !IsAuthor(v, commentUserId)
    ensures IsAuthor(v, commentUserId) ==> s.prompt == Some(AuthorPrompt)
    ensures s.request.Some? && serverOk ==>
              && (forall i :: 0 <= i < |s.comments| ==> s.comments[i].id != commentId)
              && (forall c: Comment :: c.id != commentId ==> multiset(s.comments)[c] == multiset(comments)[c])
    ensures s.request.None? || !serverOk ==> s.comments == comments
  {
    var isOwner := IsAuthor(v, commentUserId);
    var isPostOwner := IsModerator(v);
    if !isOwner && !isPostOwner then DeleteStep(None, None, comments)
    else
      var prompt := if isPostOwner && !isOwner then ModeratorPrompt else AuthorPrompt;
      if !confirmed then DeleteStep(Some(prompt), None, comments)
      else if !serverOk then DeleteStep(Some(prompt), Some(Delete(commentId)), comments)
      else
        var rest := Filter(comments, Except(commentId));
        assert forall c: Comment :: c.id != commentId ==> multiset(rest)[c] == multiset(comments)[c] by {
          forall c: Comment | c.id != commentId {
            FilterCount(comments, Except(commentId), c);
          }
        }
        DeleteStep(Some(prompt), Some(Delete(commentId)), rest)
  }

  /** The delete button and `handleDelete` agree: pressed on a comment it is
      shown for, the handler never turns the viewer away. */
  lemma DeleteButtonAgreesWithHandler(v: Viewer, comments: seq<Comment>, c: Comment,
                                      confirmed: bool, serverOk: bool)
    ensures HandleDelete(v, comments, c.id, c.author, confirmed, serverOk).prompt.Some?
        <==> CanDelete(v, c)
  {
  }

  /** The dialog speaks as the moderator exactly on the comments that carry
      the "(You can moderate this comment)" label. */
  lemma ModeratorPromptMatchesLabel(v: Viewer, comments: seq<Comment>, c: Comment,
                                    confirmed: bool, serverOk: bool)
    ensures HandleDelete(v, comments, c.id, c.author, confirmed, serverOk).prompt == Some(ModeratorPrompt)
        <==> ShowsModerateLabel(v, c)
  {
  }

  /** Deleting keeps the order of the comments that remain: deleting from a
      list split in two is deleting from each part. */
  lemma DeleteKeepsOrder(v: Viewer, front: seq<Comment>, back: seq<Comment>, commentId: CommentId,
                         commentUserId: UserRef, confirmed: bool, serverOk: bool)
    ensures HandleDelete(v, front + back, commentId, commentUserId, confirmed, serverOk).comments
         == HandleDelete(v, front, commentId, commentUserId, confirmed, serverOk).comments
          + HandleDelete(v, back, commentId, commentUserId, confirmed, serverOk).comments
  {
    FilterAppend(front, back, Except(commentId));
  }

  /** The server answers a new comment without populating its author, so
      until the list is fetched again the panel treats the comment a
      signed-in viewer has just posted as someone else's: no Edit button,
      a Delete button only for the moderating post owner, who also sees the
      moderation label and gets the moderator's dialog. */
  lemma PostedCommentLooksForeign(v: Viewer, logId: LogId, comments: seq<Comment>, draft: string,
                                  answer: Comment, confirmed: bool, serverOk: bool)
    requires TruthyRef(v.currentUserId)
    requires !AllWhitespace(draft)
    requires answer.author == Undefined
    ensures var s := Submit(logId, comments, draft, true, Some(answer));
            var c := s.comments[0];
            && c == answer
            && !CanEdit(v, c)
            && (ShowsDeleteButton(v, c) <==> IsModerator(v))
            && (ShowsModerateLabel(v, c) <==> IsModerator(v))
            && (HandleDelete(v, s.comments, c.id, c.author, confirmed, serverOk).prompt
                  == (if IsModerator(v) then Some(ModeratorPrompt) else None))
  {
  }
}

=== FILE: SaveList.dfy ===
/** The bookmark ("save") handlers of the user controller. Each user's
    saved-log list is an ordered sequence of log identifiers; the store maps
    user identifiers to those lists. */
module SaveList {
  import opened Base
  import opened Seqs

  type SavedLists = map<UserId, seq<LogId>>

  /** The HTTP status, the message and, on success, the list sent back. */
  datatype Reply = Reply(status: nat, msg: string, savedLogs: Option<seq<LogId>>)

  /** A handler's reply together with the store it leaves behind. */
  datatype Step = Step(reply: Reply, lists: SavedLists)

  const UserNotFound := "User not found"
  const AlreadySaved := "Travel log already saved"
  const Saved := "Travel log saved"
  const Unsaved := "Travel log unsaved"

  predicate NoDuplicateSaves(lists: SavedLists) {
    forall u :: u in lists ==> NoDuplicates(lists[u])
  }

  /** `saveTravelLog`: an unknown user is a 404, an id already in the list is
      a 400, and otherwise the id is appended and the new list returned. */
  function Save(lists: SavedLists, user: UserId, log: LogId): (t: Step)
    ensures t.reply.status == 200 <==> user in lists && log !in lists[user]
    ensures user !in lists ==> t.reply == Reply(404, UserNotFound, None) && t.lists == lists
    ensures user in lists && log in lists[user] ==>
              t.reply == Reply(400, AlreadySaved, None) && t.lists == lists
    ensures t.reply.status == 200 ==>
              && t.lists.Keys == lists.Keys
              && (forall u :: u in lists && u != user ==> t.lists[u] == lists[u])
              && |t.lists[user]| == |lists[user]| + 1
              && t.lists[user][..|lists[user]|] == lists[user]
              && t.lists[user][|lists[user]|] == log
              && t.reply == Reply(200, Saved, Some(t.lists[user]))
  {
    if user !in lists then Step(Reply(404, UserNotFound, None), lists)
    else if log in lists[user] then Step(Reply(400, AlreadySaved, None), lists)
    else
      var list := lists[user] + [log];
      Step(Reply(200, Saved, Some(list)), lists[user := list])
  }

  /** The predicate of the `filter` in `unsaveTravelLog`. */
  function Other(log: LogId): LogId -> bool {
    x => x != log
  }

  /** `unsaveTravelLog`: an unknown user is a 404; otherwise every occurrence
      of the id is dropped, every other entry is kept as often as before, and
      the reply is a 200 even when the id was not saved. */
  function Unsave(lists: SavedLists, user: UserId, log: LogId): (t: Step)
    ensures t.reply.status == 200 <==> user in lists
    ensures user !in lists ==> t.reply == Reply(404, UserNotFound, None) && t.lists == lists
    ensures user in lists ==>
              && t.lists.Keys == lists.Keys
              && (forall u :: u in lists && u != user ==> t.lists[u] == lists[u])
              && log !in t.lists[user]
              && (forall x :: x != log ==> multiset(t.lists[user])[x] == multiset(lists[user])[x])
              && (log !in lists[user] ==> t.lists == lists)
              && t.reply == Reply(200, Unsaved, Some(t.lists[user]))
  {
    if user !in lists then Step(Reply(404, UserNotFound, None), lists)
    else
      var list := Filter(lists[user], Other(log));
      assert forall x :: x != log ==> multiset(list)[x] == multiset(lists[user])[x] by {
        forall x | x != log {
          FilterCount(lists[user], Other(log), x);
        }
      }
      assert log !in lists[user] ==> list == lists[user] by {
        if log !in lists[user] {
          FilterKeepsAll(lists[user], Other(log));
        }
      }
      Step(Reply(200, Unsaved, Some(list)), lists[user := list])
  }

  /** Saving never introduces a duplicate. */
  lemma SavePreservesNoDuplicates(lists: SavedLists, user: UserId, log: LogId)
    requires NoDuplicateSaves(lists)
    ensures NoDuplicateSaves(Save(lists, user, log).lists)
  {
  }

  /** Unsaving never introduces a duplicate. */
  lemma UnsavePreservesNoDuplicates(lists: SavedLists, user: UserId, log: LogId)
    requires NoDuplicateSaves(lists)
    ensures NoDuplicateSaves(Unsave(lists, user, log).lists)
  {
    if user in lists {
      FilterKeepsDistinct(lists[user], Other(log));
    }
  }

  /** Saving the same log twice: the second attempt is refused and the list
      has grown by exactly one entry. */
  lemma SaveTwiceConflicts(lists: SavedLists, user: UserId, log: LogId)
    requires user in lists && log !in lists[user]
    ensures var once := Save(lists, user, log);
            var twice := Save(once.lists, user, log);
            && twice.reply.status == 400
            && twice.lists == once.lists
            && |twice.lists[user]| == |lists[user]| + 1
  {
  }

  /** Unsave is idempotent: a second unsave of the same id succeeds and
      changes nothing. */
  lemma UnsaveIdempotent(lists: SavedLists, user: UserId, log: LogId)
    ensures var once := Unsave(lists, user, log);
            var twice := Unsave(once.lists, user, log);
            && twice.lists == once.lists
            && twice.reply.status == once.reply.status
  {
  }

  /** Unsave undoes a successful save exactly. */
  lemma {:induction false} SaveThenUnsave(lists: SavedLists, user: UserId, log: LogId)
    requires user in lists && log !in lists[user]
    ensures Unsave(Save(lists, user, log).lists, user, log).lists == lists
  {
    var list := lists[user];
    FilterAppend(list, [log], Other(log));
    FilterKeepsAll(list, Other(log));
    assert Filter([log], Other(log)) == [];
    assert Filter(list + [log], Other(log)) == list;
    assert lists[user := list] == lists;
  }

  /** Unsave keeps the remaining entries in their saved order: unsaving from
      a concatenation is unsaving from each part. */
  lemma UnsaveKeepsOrder(front: seq<LogId>, back: seq<LogId>, user: UserId, log: LogId)
    ensures var lists := map[user := front + back];
            Unsave(lists, user, log).lists[user]
              == Unsave(map[user := front], user, log).lists[user]
               + Unsave(map[user := back], user, log).lists[user]
  {
    FilterAppend(front, back, Other(log));
  }
}

=== FILE: SavedLogsView.dfy ===
/** The saved-logs page of the client: the location and tag filters, the
    three sort orders, the filter-panel helpers, the list of tags offered
    for filtering, and the local bookkeeping after a log is unsaved.
    `localeCompare` on titles is an abstract total preorder `titleLeq`;
    timestamps are integers. */
module SavedLogsView {
  import opened Base
  import opened Strings
  import opened Seqs

  /** A saved travel log, with the fields the page reads. */
  datatype Log = Log(id: LogId, title: string, location: string, tags: seq<string>, createdAt: int)

  /** The filter state: location query, selected tags, sort key. */
  datatype Filters = Filters(location: string, selectedTags: seq<string>, sortBy: string)

  datatype SortMode = Newest | Oldest | Alphabetical

  /** The `switch` on `sortBy`: any key other than "oldest" and
      "alphabetical" sorts newest first. */
  function ModeOf(sortBy: string): (m: SortMode)
    ensures m == Oldest <==> sortBy == "oldest"
    ensures m == Alphabetical <==> sortBy == "alphabetical"
  {
    if sortBy == "oldest" then Oldest
    else if sortBy == "alphabetical" then Alphabetical
    else Newest
  }

  /** The location test: the lower-cased location contains the lower-cased
      query. */
  predicate LocationMatches(log: Log, query: string) {
    Contains(ToLower(log.location), ToLower(query))
  }

  /** The tag test: some selected tag equals some lower-cased tag of the log. */
  predicate TagMatches(log: Log, selected: seq<string>) {
    exists i, j :: 0 <= i < |selected| && 0 <= j < |log.tags| && ToLower(log.tags[j]) == selected[i]
  }

  /** Whether a log survives both filters; an empty query or an empty tag
      selection does not filter. */
  predicate Keep(f: Filters, log: Log) {
    && (f.location == "" || LocationMatches(log, f.location))
    && (|f.selectedTags| == 0 || TagMatches(log, f.selectedTags))
  }

  /** The comparator of each sort mode, as "may come first". */
  function Before(mode: SortMode, titleLeq: (string, string) -> bool): (Log, Log) -> bool {
    match mode
    case Newest => (a: Log, b: Log) => a.createdAt >= b.createdAt
    case Oldest => (a: Log, b: Log) => a.createdAt <= b.createdAt
    case Alphabetical => (a: Log, b: Log) => titleLeq(a.title, b.title)
  }

  lemma BeforeIsTotalPreorder(mode: SortMode, titleLeq: (string, string) -> bool)
    requires TotalPreorder(titleLeq)
    ensures TotalPreorder(Before(mode, titleLeq))
  {
    var leq := Before(mode, titleLeq);
    forall x, y, z | leq(x, y) && leq(y, z) ensures leq(x, z) {
      if mode == Alphabetical {
        assert titleLeq(x.title, y.title) && titleLeq(y.title, z.title);
      }
    }
    forall x, y ensures leq(x, y) || leq(y, x) {
      if mode == Alphabetical {
        assert titleLeq(x.title, y.title) || titleLeq(y.title, x.title);
      }
    }
  }

  function AtLocation(query: string): Log -> bool {
    (log: Log) => LocationMatches(log, query)
  }

  function WithSomeTag(selected: seq<string>): Log -> bool {
    (log: Log) => TagMatches(log, selected)
  }

  /** The filter effect: location filter, then tag filter, then sort. The
      result holds exactly the kept logs, each as often as saved, in the
      order the sort key asks for. */
  function ApplyFilters(f: Filters, logs: seq<Log>, titleLeq: (string, string) -> bool): (r: seq<Log>)
    requires TotalPreorder(titleLeq)
    ensures forall x :: multiset(r)[x] == if Keep(f, x) then multiset(logs)[x] else 0
    ensures SortedBy(r, Before(ModeOf(f.sortBy), titleLeq))
    ensures ModeOf(f.sortBy) == Newest ==>
              forall i, j :: 0 <= i < j < |r| ==> r[i].createdAt >= r[j].createdAt
    ensures ModeOf(f.sortBy) == Oldest ==>
              forall i, j :: 0 <= i < j < |r| ==> r[i].createdAt <= r[j].createdAt
    ensures ModeOf(f.sortBy) == Alphabetical ==>
              forall i, j :: 0 <= i < j < |r| ==> titleLeq(r[i].title, r[j].title)
  {
    var byLocation := if f.location != "" then Filter(logs, AtLocation(f.location)) else logs;
    var byTags := if |f.selectedTags| > 0 then Filter(byLocation, WithSomeTag(f.selectedTags)) else byLocation;
    var mode := ModeOf(f.sortBy);
    BeforeIsTotalPreorder(mode, titleLeq);
    var r := SortBy(byTags, Before(mode, titleLeq));
    assert forall x :: multiset(r)[x] == if Keep(f, x) then multiset(logs)[x] else 0 by {
      forall x ensures multiset(r)[x] == if Keep(f, x) then multiset(logs)[x] else 0 {
        if f.location != "" {
          FilterCount(logs, AtLocation(f.location), x);
        }
        if |f.selectedTags| > 0 {
          FilterCount(byLocation, WithSomeTag(f.selectedTags), x);
        }
      }
    }
    r
  }

  function Kept(f: Filters): Log -> bool {
    (log: Log) => Keep(f, log)
  }

  /** `Array.prototype.sort` is stable, so logs the sort key ranks equal
      keep the order they have among the saved logs. */
  lemma ApplyFiltersKeepsTies(f: Filters, logs: seq<Log>, titleLeq: (string, string) -> bool, y: Log)
    requires TotalPreorder(titleLeq)
    ensures var tied := TiedWith(Before(ModeOf(f.sortBy), titleLeq), y);
            Filter(ApplyFilters(f, logs, titleLeq), tied) == Filter(Filter(logs, Kept(f)), tied)
  {
    var byLocation := if f.location != "" then Filter(logs, AtLocation(f.location)) else logs;
    var byTags := if |f.selectedTags| > 0 then Filter(byLocation, WithSomeTag(f.selectedTags)) else byLocation;
    if f.location != "" && |f.selectedTags| > 0 {
      FilterFilter(logs, AtLocation(f.location), WithSomeTag(f.selectedTags), Kept(f));
    } else if f.location != "" {
      FilterAgreeing(logs, AtLocation(f.location), Kept(f));
    } else if |f.selectedTags| > 0 {
      FilterAgreeing(logs, WithSomeTag(f.selectedTags), Kept(f));
    } else {
      FilterKeepsAll(logs, Kept(f));
    }
    assert byTags == Filter(logs, Kept(f));
    var mode := ModeOf(f.sortBy);
    BeforeIsTotalPreorder(mode, titleLeq);
    SortByIsStable(byTags, Before(mode, titleLeq), y);
  }

  /** Filtering never adds a log: the result is drawn from the saved logs. */
  lemma FilteredAreSaved(f: Filters, logs: seq<Log>, titleLeq: (string, string) -> bool)
    requires TotalPreorder(titleLeq)
    ensures multiset(ApplyFilters(f, logs, titleLeq)) <= multiset(logs)
    ensures |ApplyFilters(f, logs, titleLeq)| <= |logs|
  {
  }

  function NotTag(tag: string): string -> bool {
    (t: string) => t != tag
  }

  /** `handleTagToggle`: a selected tag is removed wherever it occurs, any
      other tag is appended. */
  function ToggleTag(selected: seq<string>, tag: string): (r: seq<string>)
    ensures tag in selected ==>
              && tag !in r
              && (forall t :: t != tag ==> multiset(r)[t] == multiset(selected)[t])
    ensures tag !in selected ==> |r| == |selected| + 1 && r[..|selected|] == selected && r[|selected|] == tag
  {
    if tag in selected then
      var r := Filter(selected, NotTag(tag));
      assert forall t :: t != tag ==> multiset(r)[t] == multiset(selected)[t] by {
        forall t | t != tag {
          FilterCount(selected, NotTag(tag), t);
        }
      }
      r
    else selected + [tag]
  }

  /** Toggling a selected tag off and on again restores the selection as
      a set. */
  lemma ToggleTwiceSelected(selected: seq<string>, tag: string)
    requires tag in selected
    ensures (set t | t in ToggleTag(ToggleTag(selected, tag), tag)) == (set t | t in selected)
  {
    var once := ToggleTag(selected, tag);
    var twice := ToggleTag(once, tag);
    assert twice == once + [tag];
    forall t ensures t in twice <==> t in selected {
      if t != tag {
        assert multiset(once)[t] == multiset(selected)[t];
        assert t in once <==> t in selected;
      } else {
        assert twice[|once|] == tag;
      }
    }
  }

  /** Toggling an unselected tag on and off again restores the very
      selection. */
  lemma ToggleTwiceUnselected(selected: seq<string>, tag: string)
    requires tag !in selected
    ensures ToggleTag(ToggleTag(selected, tag), tag) == selected
  {
    var once := ToggleTag(selected, tag);
    assert once == selected + [tag];
    assert once[|selected|] == tag;
    FilterAppend(selected, [tag], NotTag(tag));
    FilterKeepsAll(selected, NotTag(tag));
    assert Filter([tag], NotTag(tag)) == [];
  }

  /** `getActiveFilterCount`: one for a location query, one for a tag
      selection. */
  function ActiveFilterCount(f: Filters): (n: nat)
    ensures n <= 2
    ensures n == 0 <==> f.location == "" && f.selectedTags == []
    ensures n == 2 <==> f.location != "" && f.selectedTags != []
  {
    (if f.location != "" then 1 else 0) + (if |f.selectedTags| > 0 then 1 else 0)
  }

  /** With no active filter every saved log is shown. */
  lemma NoActiveFilterShowsAll(f: Filters, logs: seq<Log>, titleLeq: (string, string) -> bool)
    requires TotalPreorder(titleLeq)
    requires ActiveFilterCount(f) == 0
    ensures multiset(ApplyFilters(f, logs, titleLeq)) == multiset(logs)
  {
  }

  /** `clearFilters`: no active filter, newest first. */
  function ClearFilters(): (f: Filters)
    ensures ActiveFilterCount(f) == 0
    ensures f.sortBy == "newest" && ModeOf(f.sortBy) == Newest
  {
    Filters("", [], "newest")
  }

  /** A log filed under `t`, after lower-casing. */
  predicate HasLoweredTag(logs: seq<Log>, t: string) {
    exists i, j :: 0 <= i < |logs| && 0 <= j < |logs[i].tags| && ToLower(logs[i].tags[j]) == t
  }

  /** Every lower-cased tag of every log, in page order. */
  function LoweredTags(logs: seq<Log>): (r: seq<string>)
    ensures forall t :: t in r <==> HasLoweredTag(logs, t)
  {
    if logs == [] then []
    else
      var own := seq(|logs[0].tags|, j requires 0 <= j < |logs[0].tags| => ToLower(logs[0].tags[j]));
      var rest := LoweredTags(logs[1..]);
      assert forall t :: HasLoweredTag(logs, t) <==> t in own || HasLoweredTag(logs[1..], t) by {
        forall t ensures HasLoweredTag(logs, t) <==> t in own || HasLoweredTag(logs[1..], t) {
          if HasLoweredTag(logs, t) {
            var i, j :| 0 <= i < |logs| && 0 <= j < |logs[i].tags| && ToLower(logs[i].tags[j]) == t;
            if i == 0 {
              assert own[j] == t;
            } else {
              assert logs[1..][i - 1] == logs[i];
            }
          }
          if HasLoweredTag(logs[1..], t) {
            var i, j :| 0 <= i < |logs[1..]| && 0 <= j < |logs[1..][i].tags| && ToLower(logs[1..][i].tags[j]) == t;
            assert logs[i + 1] == logs[1..][i];
          }
          if t in own {
            var j :| 0 <= j < |own| && own[j] == t;
            assert ToLower(logs[0].tags[j]) == t;
          }
        }
      }
      own + rest
  }

  ghost predicate StrictlySorted(s: seq<string>) {
    forall i, j :: 0 <= i < j < |s| ==> StrLess(s[i], s[j])
  }

  /** Adds `x` to a strictly sorted list unless it is already there. */
  function InsertUnique(x: string, s: seq<string>): (r: seq<string>)
    requires StrictlySorted(s)
    ensures StrictlySorted(r)
    ensures forall y :: y in r <==> y == x || y in s
  {
    StrLessIsStrictTotalOrder();
    if s == [] then [x]
    else if x == s[0] then s
    else if StrLess(x, s[0]) then [x] + s
    else
      var rest := InsertUnique(x, s[1..]);
      assert forall k :: 0 <= k < |rest| ==> StrLess(s[0], rest[k]) by {
        forall k | 0 <= k < |rest| ensures StrLess(s[0], rest[k]) {
          assert rest[k] in rest;
          if rest[k] != x {
            var j :| 0 <= j < |s[1..]| && s[1..][j] == rest[k];
            assert s[j + 1] == rest[k];
          }
        }
      }
      assert forall y :: y in s <==> y == s[0] || y in s[1..] by {
        assert s == [s[0]] + s[1..];
      }
      [s[0]] + rest
  }

  /** `Array.from(new Set(xs)).sort()`. */
  function SortedSet(xs: seq<string>): (r: seq<string>)
    ensures StrictlySorted(r)
    ensures forall y :: y in r <==> y in xs
  {
    if xs == [] then []
    else
      var r := InsertUnique(xs[0], SortedSet(xs[1..]));
      assert forall y :: y in xs <==> y == xs[0] || y in xs[1..] by {
        assert xs == [xs[0]] + xs[1..];
      }
      r
  }

  /** The tags offered for filtering: every lower-cased tag of the saved
      logs, each once, in ascending character order. */
  function AvailableTags(logs: seq<Log>): (r: seq<string>)
    ensures StrictlySorted(r)
    ensures NoDuplicates(r)
    ensures forall t :: t in r <==> HasLoweredTag(logs, t)
  {
    var r := SortedSet(LoweredTags(logs));
    StrLessIsStrictTotalOrder();
    r
  }

  /** The page's state: every saved log, the logs shown, the filters and
      the tags offered. */
  datatype Page = Page(all: seq<Log>, shown: seq<Log>, filters: Filters, availableTags: seq<string>)

  /** The shown list is what the filter effect computes from the saved logs,
      up to the order of logs the sort key ranks equal. */
  ghost predicate Consistent(p: Page, titleLeq: (string, string) -> bool)
    requires TotalPreorder(titleLeq)
  {
    && multiset(p.shown) == multiset(ApplyFilters(p.filters, p.all, titleLeq))
    && SortedBy(p.shown, Before(ModeOf(p.filters.sortBy), titleLeq))
  }

  function NotLog(id: LogId): Log -> bool {
    (log: Log) => log.id != id
  }

  /** What `handleUnsaveLog` does to the page once the server has accepted
      the unsave: the log leaves both lists and the offered tags are
      recomputed from the remaining logs. */
  function UnsaveOnPage(p: Page, id: LogId): (q: Page)
    ensures q.filters == p.filters
    ensures forall i :: 0 <= i < |q.all| ==> q.all[i].id != id
    ensures forall i :: 0 <= i < |q.shown| ==> q.shown[i].id != id
    ensures forall x: Log :: x.id != id ==> multiset(q.all)[x] == multiset(p.all)[x]
    ensures forall x: Log :: x.id != id ==> multiset(q.shown)[x] == multiset(p.shown)[x]
    ensures forall t :: t in q.availableTags <==> HasLoweredTag(q.all, t)
    ensures StrictlySorted(q.availableTags) && NoDuplicates(q.availableTags)
  {
    var all := Filter(p.all, NotLog(id));
    var shown := Filter(p.shown, NotLog(id));
    assert forall x: Log :: x.id != id ==> multiset(all)[x] == multiset(p.all)[x] by {
      forall x: Log | x.id != id {
        FilterCount(p.all, NotLog(id), x);
      }
    }
    assert forall x: Log :: x.id != id ==> multiset(shown)[x] == multiset(p.shown)[x] by {
      forall x: Log | x.id != id {
        FilterCount(p.shown, NotLog(id), x);
      }
    }
    Page(all, shown, p.filters, AvailableTags(all))
  }

  /** Unsaving keeps the order of both lists: on a page whose lists are
      split in two, it removes the log from each part separately. */
  lemma UnsaveOnPageKeepsOrder(all1: seq<Log>, all2: seq<Log>, shown1: seq<Log>, shown2: seq<Log>,
                               f: Filters, tags: seq<string>, id: LogId)
    ensures UnsaveOnPage(Page(all1 + all2, shown1 + shown2, f, tags), id).all
         == UnsaveOnPage(Page(all1, shown1, f, tags), id).all + UnsaveOnPage(Page(all2, shown2, f, tags), id).all
    ensures UnsaveOnPage(Page(all1 + all2, shown1 + shown2, f, tags), id).shown
         == UnsaveOnPage(Page(all1, shown1, f, tags), id).shown + UnsaveOnPage(Page(all2, shown2, f, tags), id).shown
  {
    FilterAppend(all1, all2, NotLog(id));
    FilterAppend(shown1, shown2, NotLog(id));
  }

  /** Unsaving keeps the page consistent: the shown list is still the
      filtered, sorted view of the logs that remain saved. */
  lemma UnsaveKeepsPageConsistent(p: Page, id: LogId, titleLeq: (string, string) -> bool)
    requires TotalPreorder(titleLeq)
    requires Consistent(p, titleLeq)
    ensures Consistent(UnsaveOnPage(p, id), titleLeq)
  {
    var q := UnsaveOnPage(p, id);
    FilterKeepsSorted(p.shown, NotLog(id), Before(ModeOf(p.filters.sortBy), titleLeq));
    var before := ApplyFilters(p.filters, p.all, titleLeq);
    var after := ApplyFilters(q.filters, q.all, titleLeq);
    forall x ensures multiset(q.shown)[x] == multiset(after)[x] {
      FilterCount(p.shown, NotLog(id), x);
      FilterCount(p.all, NotLog(id), x);
      assert multiset(p.shown)[x] == multiset(before)[x];
    }
  }
}

=== FILE: Seqs.dfy ===
/** Sequence operations shared by the server and the client models:
    `Array.prototype.filter` and a stable comparison sort, each with the
    facts the rest of the model needs about them. */
module Seqs {

  /** `s.filter(p)`: the elements satisfying `p`, in their order. */
  function Filter<T>(s: seq<T>, p: T -> bool): (r: seq<T>)
    ensures |r| <= |s|
    ensures forall i :: 0 <= i < |r| ==> p(r[i])
  {
    if s == [] then []
    else if p(s[0]) then [s[0]] + Filter(s[1..], p)
    else Filter(s[1..], p)
  }

  /** A filter keeps every element satisfying `p` as often as it occurs,
      and nothing else. */
  lemma {:induction false} FilterCount<T>(s: seq<T>, p: T -> bool, x: T)
    ensures multiset(Filter(s, p))[x] == if p(x) then multiset(s)[x] else 0
  {
    if s != [] {
      FilterCount(s[1..], p, x);
      assert s == [s[0]] + s[1..];
    }
  }

  /** Filtering keeps relative order: it distributes over concatenation. */
  lemma {:induction false} FilterAppend<T>(a: seq<T>, b: seq<T>, p: T -> bool)
    ensures Filter(a + b, p) == Filter(a, p) + Filter(b, p)
  {
    if a == [] {
      assert a + b == b;
    } else {
      var ab := a + b;
      assert ab[0] == a[0] && ab[1..] == a[1..] + b;
      FilterAppend(a[1..], b, p);
      assert Filter(ab, p) == (if p(a[0]) then [a[0]] else []) + Filter(a[1..] + b, p);
      assert Filter(a, p) == (if p(a[0]) then [a[0]] else []) + Filter(a[1..], p);
    }
  }

  /** Filtering with a predicate every element satisfies changes nothing. */
  lemma {:induction false} FilterKeepsAll<T>(s: seq<T>, p: T -> bool)
    requires forall i :: 0 <= i < |s| ==> p(s[i])
    ensures Filter(s, p) == s
  {
    if s != [] {
      FilterKeepsAll(s[1..], p);
    }
  }

  /** Filtering twice is filtering once by both tests; with `q` true
      everywhere `p` is, this also says two agreeing tests filter alike. */
  lemma {:induction false} FilterFilter<T>(s: seq<T>, p: T -> bool, q: T -> bool, both: T -> bool)
    requires forall i :: 0 <= i < |s| ==> both(s[i]) == (p(s[i]) && q(s[i]))
    ensures Filter(Filter(s, p), q) == Filter(s, both)
  {
    if s != [] {
      FilterFilter(s[1..], p, q, both);
      if p(s[0]) {
        var r := [s[0]] + Filter(s[1..], p);
        assert r[0] == s[0] && r[1..] == Filter(s[1..], p);
      }
    }
  }

  /** Filtering with tests that agree on every element gives the same list. */
  lemma {:induction false} FilterAgreeing<T>(s: seq<T>, p: T -> bool, q: T -> bool)
    requires forall i :: 0 <= i < |s| ==> p(s[i]) == q(s[i])
    ensures Filter(s, p) == Filter(s, q)
  {
    if s != [] {
      FilterAgreeing(s[1..], p, q);
    }
  }

  /** No value occurs twice. */
  predicate NoDuplicates<T(==)>(s: seq<T>) {
    forall i, j :: 0 <= i < j < |s| ==> s[i] != s[j]
  }

  /** Filtering a list without duplicates gives one without duplicates. */
  lemma {:induction false} FilterKeepsDistinct<T>(s: seq<T>, p: T -> bool)
    requires NoDuplicates(s)
    ensures NoDuplicates(Filter(s, p))
  {
    if s != [] {
      FilterKeepsDistinct(s[1..], p);
      if p(s[0]) {
        FilterCount(s[1..], p, s[0]);
        assert s[0] !in s[1..];
        assert s[0] !in Filter(s[1..], p);
      }
    }
  }


  /** `leq` is a total preorder: what a consistent sort comparator gives. */
  ghost predicate TotalPreorder<T(!new)>(leq: (T, T) -> bool) {
    && (forall x, y :: leq(x, y) || leq(y, x))
    && (forall x, y, z :: leq(x, y) && leq(y, z) ==> leq(x, z))
  }

  ghost predicate SortedBy<T>(s: seq<T>, leq: (T, T) -> bool) {
    forall i, j :: 0 <= i < j < |s| ==> leq(s[i], s[j])
  }

  /** Inserts `x` before the first element it does not follow. */
  function Insert<T(!new)>(x: T, s: seq<T>, leq: (T, T) -> bool): (r: seq<T>)
    requires TotalPreorder(leq)
    requires SortedBy(s, leq)
    ensures multiset(r) == multiset(s) + multiset{x}
    ensures SortedBy(r, leq)
  {
    if s == [] then [x]
    else if leq(x, s[0]) then [x] + s
    else
      var rest := Insert(x, s[1..], leq);
      assert s == [s[0]] + s[1..];
      assert forall k :: 0 <= k < |rest| ==> leq(s[0], rest[k]) by {
        forall k | 0 <= k < |rest| ensures leq(s[0], rest[k]) {
          assert rest[k] in multiset(rest);
          if rest[k] != x {
            assert rest[k] in multiset(s[1..]);
            var j :| 0 <= j < |s[1..]| && s[1..][j] == rest[k];
            assert s[j + 1] == rest[k];
          }
        }
      }
      [s[0]] + rest
  }

  /** A stable insertion sort: the result is a permutation of `s` ordered by
      `leq`. */
  function SortBy<T(!new)>(s: seq<T>, leq: (T, T) -> bool): (r: seq<T>)
    requires TotalPreorder(leq)
    ensures multiset(r) == multiset(s)
    ensures SortedBy(r, leq)
  {
    if s == [] then []
    else
      assert s == [s[0]] + s[1..];
      Insert(s[0], SortBy(s[1..], leq), leq)
  }

  /** Filtering a sorted list leaves it sorted. */
  lemma {:induction false} FilterKeepsSorted<T(!new)>(s: seq<T>, p: T -> bool, leq: (T, T) -> bool)
    requires SortedBy(s, leq)
    ensures SortedBy(Filter(s, p), leq)
  {
    if s != [] {
      FilterKeepsSorted(s[1..], p, leq);
      var rest := Filter(s[1..], p);
      if p(s[0]) {
        forall k | 0 <= k < |rest| ensures leq(s[0], rest[k]) {
          FilterCount(s[1..], p, rest[k]);
          assert rest[k] in multiset(rest);
          assert rest[k] in s[1..];
          var j :| 0 <= j < |s[1..]| && s[1..][j] == rest[k];
          assert s[j + 1] == rest[k];
        }
      }
    }
  }

  /** The elements `leq` ranks equal to `y`. */
  function TiedWith<T>(leq: (T, T) -> bool, y: T): T -> bool {
    (x: T) => leq(x, y) && leq(y, x)
  }

  /** Insertion puts `x` in front of every element it ties with, so among
      the elements of one rank, `x` comes first and the rest keep their
      order. */
  lemma {:induction false} InsertKeepsTies<T(!new)>(x: T, s: seq<T>, leq: (T, T) -> bool, y: T)
    requires TotalPreorder(leq)
    requires SortedBy(s, leq)
    ensures Filter(Insert(x, s, leq), TiedWith(leq, y))
         == (if TiedWith(leq, y)(x) then [x] else []) + Filter(s, TiedWith(leq, y))
  {
    var tied := TiedWith(leq, y);
    if s == [] {
    } else if leq(x, s[0]) {
      var r := [x] + s;
      assert r[0] == x && r[1..] == s;
    } else {
      var rest := Insert(x, s[1..], leq);
      InsertKeepsTies(x, s[1..], leq, y);
      var r := [s[0]] + rest;
      assert r[0] == s[0] && r[1..] == rest;
      assert !(tied(x) && tied(s[0]));
    }
  }

  /** The sort is stable: the elements of any one rank appear in the result
      in the order they had in the input. */
  lemma {:induction false} SortByIsStable<T(!new)>(s: seq<T>, leq: (T, T) -> bool, y: T)
    requires TotalPreorder(leq)
    ensures Filter(SortBy(s, leq), TiedWith(leq, y)) == Filter(s, TiedWith(leq, y))
  {
    if s != [] {
      SortByIsStable(s[1..], leq, y);
      InsertKeepsTies(s[0], SortBy(s[1..], leq), leq, y);
    }
  }
}

=== FILE: Strings.dfy ===
/** String primitives the client and the server rely on, written out with the
    JavaScript semantics they have in the JavaScript program: whitespace and
    `trim`, `toLowerCase`, `includes`, `startsWith`, `split(' ')`, and the
    default ordering `Array.prototype.sort` uses for strings. */
module Strings {

  /** The characters JavaScript's `String.prototype.trim` removes: the
      WhiteSpace and LineTerminator productions of ECMAScript. */
  predicate IsWhitespace(c: char) {
    || c == '\t' || c == '\n' || c == '\U{B}' || c == '\U{C}' || c == '\r'
    || c == ' ' || c == '\U{A0}' || c == '\U{1680}'
    || ('\U{2000}' <= c <= '\U{200A}')
    || c == '\U{2028}' || c == '\U{2029}' || c == '\U{202F}' || c == '\U{205F}'
    || c == '\U{3000}' || c == '\U{FEFF}'
  }

  ghost predicate AllWhitespace(s: string) {
    forall i :: 0 <= i < |s| ==> IsWhitespace(s[i])
  }

  /** Drops leading whitespace; the result is a suffix of `s`. */
  function TrimStart(s: string): (r: string)
    ensures |r| <= |s| && r == s[|s| - |r|..]
    ensures AllWhitespace(s[..|s| - |r|])
    ensures r == [] || !IsWhitespace(r[0])
  {
    if |s| > 0 && IsWhitespace(s[0]) then
      var r := TrimStart(s[1..]);
      assert s[..|s| - |r|] == [s[0]] + s[1..][..|s| - 1 - |r|];
      r
    else
      s
  }

  /** Drops trailing whitespace; the result is a prefix of `s`. */
  function TrimEnd(s: string): (r: string)
    ensures |r| <= |s| && r == s[..|r|]
    ensures AllWhitespace(s[|r|..])
    ensures r == [] || !IsWhitespace(r[|r| - 1])
  {
    if |s| > 0 && IsWhitespace(s[|s| - 1]) then
      var r := TrimEnd(s[..|s| - 1]);
      assert s[|r|..] == s[..|s| - 1][|r|..] + [s[|s| - 1]];
      r
    else
      s
  }

  /** `String.prototype.trim`: the result is a window of `s` with only
      whitespace on either side of it; it is empty exactly when `s` is all
      whitespace, and otherwise neither starts nor ends with whitespace. */
  function Trim(s: string): (r: string)
    ensures |r| <= |s|
    ensures exists a, b :: 0 <= a <= b <= |s| && r == s[a..b] && AllWhitespace(s[..a]) && AllWhitespace(s[b..])
    ensures r == [] <==> AllWhitespace(s)
    ensures r == [] || (!IsWhitespace(r[0]) && !IsWhitespace(r[|r| - 1]))
  {
    var t := TrimStart(s);
    var r := TrimEnd(t);
    assert r == [] ==> t == [];
    assert s[..|s|] == s;
    var a := |s| - |t|;
    assert r == s[a..a + |r|] && s[a + |r|..] == t[|r|..];
    r
  }

  /** Trimming a trimmed string changes nothing. */
  lemma TrimIdempotent(s: string)
    ensures Trim(Trim(s)) == Trim(s)
  {
  }

  /** ASCII case mapping; other characters are left as they are. */
  function LowerChar(c: char): char {
    if 'A' <= c <= 'Z' then (c as int + 32) as char else c
  }

  /** `String.prototype.toLowerCase`, restricted to the ASCII letters. */
  function ToLower(s: string): (r: string)
    ensures |r| == |s|
    ensures forall i :: 0 <= i < |s| ==> r[i] == LowerChar(s[i])
  {
    if s == [] then [] else [LowerChar(s[0])] + ToLower(s[1..])
  }

  /** `s.startsWith(p)`. */
  predicate StartsWith(s: string, p: string) {
    |p| <= |s| && s[..|p|] == p
  }

  /** `needle` occupies the window of `hay` that starts at `i`. */
  predicate OccursAt(hay: string, needle: string, i: int) {
    0 <= i && i + |needle| <= |hay| && hay[i..i + |needle|] == needle
  }

  /** `hay.includes(needle)`: some window of `hay` equals `needle`. */
  function Contains(hay: string, needle: string): (r: bool)
    ensures r <==> exists i :: OccursAt(hay, needle, i)
    decreases |hay|
  {
    if StartsWith(hay, needle) then
      assert OccursAt(hay, needle, 0);
      true
    else if hay == [] then
      assert forall i :: !OccursAt(hay, needle, i);
      false
    else
      var rest := Contains(hay[1..], needle);
      assert rest ==> exists i :: OccursAt(hay, needle, i) by {
        if rest {
          var j :| OccursAt(hay[1..], needle, j);
          assert hay[j + 1..j + 1 + |needle|] == hay[1..][j..j + |needle|];
          assert OccursAt(hay, needle, j + 1);
        }
      }
      assert (exists i :: OccursAt(hay, needle, i)) ==> rest by {
        if exists i :: OccursAt(hay, needle, i) {
          var i :| OccursAt(hay, needle, i);
          assert i != 0;
          assert hay[1..][i - 1..i - 1 + |needle|] == hay[i..i + |needle|];
          assert OccursAt(hay[1..], needle, i - 1);
        }
      }
      rest
  }

  /** Index of the first `sep` in `s`, or `|s|` when there is none. */
  function IndexOf(s: string, sep: char): (i: nat)
    ensures i <= |s|
    ensures forall k :: 0 <= k < i ==> s[k] != sep
    ensures i < |s| ==> s[i] == sep
  {
    if s == [] then 0 else if s[0] == sep then 0 else 1 + IndexOf(s[1..], sep)
  }

  /** `s.split(sep)` for a one-character separator: the maximal
      separator-free pieces, in order; there is always at least one. */
  function Split(s: string, sep: char): (parts: seq<string>)
    ensures |parts| >= 1
    ensures forall k, j :: 0 <= k < |parts| && 0 <= j < |parts[k]| ==> parts[k][j] != sep
    ensures parts[0] == s[..IndexOf(s, sep)]
    decreases |s|
  {
    var i := IndexOf(s, sep);
    if i == |s| then [s] else [s[..i]] + Split(s[i + 1..], sep)
  }

  /** `parts.join(sep)`. */
  function Join(parts: seq<string>, sep: char): string
    requires |parts| >= 1
  {
    if |parts| == 1 then parts[0] else parts[0] + [sep] + Join(parts[1..], sep)
  }

  /** Splitting loses nothing: joining the pieces gives the string back. */
  lemma {:induction false} JoinSplit(s: string, sep: char)
    ensures Join(Split(s, sep), sep) == s
    decreases |s|
  {
    var i := IndexOf(s, sep);
    if i < |s| {
      JoinSplit(s[i + 1..], sep);
      assert Split(s, sep)[1..] == Split(s[i + 1..], sep);
      assert s == s[..i] + [sep] + s[i + 1..];
    }
  }

  /** Strict order of strings by character code, the order the default
      comparison of `Array.prototype.sort` gives. */
  predicate StrLess(a: string, b: string) {
    if a == [] then b != []
    else if b == [] then false
    else if a[0] != b[0] then a[0] < b[0]
    else StrLess(a[1..], b[1..])
  }

  lemma {:induction false} StrLessIrreflexive(a: string)
    ensures !StrLess(a, a)
  {
    if a != [] {
      StrLessIrreflexive(a[1..]);
    }
  }

  lemma {:induction false} StrLessTransitive(a: string, b: string, c: string)
    requires StrLess(a, b) && StrLess(b, c)
    ensures StrLess(a, c)
  {
    if a != [] && b != [] && c != [] && a[0] == b[0] && b[0] == c[0] {
      StrLessTransitive(a[1..], b[1..], c[1..]);
    }
  }

  lemma {:induction false} StrLessTrichotomy(a: string, b: string)
    ensures a == b || StrLess(a, b) || StrLess(b, a)
  {
    if a != [] && b != [] && a[0] == b[0] {
      StrLessTrichotomy(a[1..], b[1..]);
      if a[1..] == b[1..] {
        assert a == [a[0]] + a[1..] && b == [b[0]] + b[1..];
      }
    }
  }

  /** The three facts above, as quantified statements for callers. */
  lemma StrLessIsStrictTotalOrder()
    ensures forall a :: !StrLess(a, a)
    ensures forall a, b, c :: StrLess(a, b) && StrLess(b, c) ==> StrLess(a, c)
    ensures forall a, b :: a == b || StrLess(a, b) || StrLess(b, a)
  {
    forall a ensures !StrLess(a, a) {
      StrLessIrreflexive(a);
    }
    forall a, b, c | StrLess(a, b) && StrLess(b, c) ensures StrLess(a, c) {
      StrLessTransitive(a, b, c);
    }
    forall a, b ensures a == b || StrLess(a, b) || StrLess(b, a) {
      StrLessTrichotomy(a, b);
    }
  }
}
